=== FILE: README.md ===
# ITY search core in Dafny

ITY is a small haircut-booking search service. A customer either types a
conversational query ("fade with Alex under 50") or fills in structured search
fields. The service asks the booking providers' connectors for free appointment
slots. It keeps the slots that fit the budget and start no earlier than the
requested time. Each kept slot is scored and normalized into one
provider-agnostic shape. The list is then ranked by score (highest first), then
price, then start time, and cut to the requested number of results.

This project models that core in `ity/app/main.py`:

- `interpreter.dfy` (module `Interpreter`): `conversational_to_search`. It covers
  the budget scan over the tokens, the ordered service and timing rules, and the
  stylist rule. Both the budget scan (`int()` refuses a number of more than 4300
  digits) and the stylist rule can fail, and each failure is an explicit error
  value.
- `when_parser.dfy` (module `WhenParser`): `parse_when_text`. The clock reading
  is a parameter, and so is the fuzzy date parser.
- `slots.dfy` (module `Slots`): the three records, and `normalize_slots` with
  its composite id. The score is a function parameter.
- `scoring.dfy` (module `Scoring`): the stylist-match condition of
  `compute_score`.
- `pipeline.dfy` (module `Pipeline`): the part of `search_haircuts_internal`
  after the connectors have answered: flatten, filter, normalize, sort, slice.
- `ranking.dfy` (module `Ranking`): the stable sort by
  `(-score, price_cents, start_time)`. It has a reference definition and an
  in-place array method proved equal to it.
- `text.dfy` (module `Text`): the pieces of Python `str` the core relies on.
  These are `lower`, `split()`, `strip`, `replace`, `isdigit`, `int`, the
  substring test `in` and `split(sep, 1)`.
- `interpreter_examples.dfy` (module `InterpreterExamples`): two concrete
  queries worked through the interpreter.
- `wrappers.dfy` (module `Wrappers`): `Option` and `Result`.

Time values are naive `datetime`s, counted in microseconds from 0001-01-01. The
type `Instant` covers exactly the range Python can represent. Because of that,
the `OverflowError` that "tomorrow" raises on 9999-12-31 appears as `None`,
which is what the `except Exception` in `parse_when_text` returns.

## Model

| member | source | states |
|---|---|---|
| Interpreter.ConversationalToSearch | ity/app/main.py:184-213 | An absent or empty query gives the default `SearchRequest` (limit 25, everything else unset). Otherwise the result keeps the original query and takes `when`, `budget_max`, `service` and `stylist` from the lower-cased text, with `lat`, `lng` and the distance unset. It fails exactly when the budget loop meets an all-digit token longer than 4300 digits (`int()` raises ValueError; this error comes first) or the stylist rule fails. |
| Interpreter.ScanBudget | ity/app/main.py:195-199 | The token loop fails (ValueError from `int()`) exactly when some token is all digits and longer than 4300 digits. Otherwise it leaves exactly `BudgetOf(tokens)`, so a later qualifying token overwrites an earlier one. |
| Interpreter.BudgetNoneIffNoToken | ity/app/main.py:195-199 | There is no budget exactly when no token is all digits with a value below 200. |
| Interpreter.BudgetIsLastToken | ity/app/main.py:195-199 | A budget is the value of a qualifying token after which no token qualifies. |
| Interpreter.BudgetIsLastSmallNumber | ity/app/main.py:195-199 | Combines the two lemmas above. The budget is in [0, 200), it comes from the last qualifying token, and it is absent exactly when no token qualifies. |
| Interpreter.ServiceOf | ity/app/main.py:200-205 | "fade" is chosen exactly when the query contains "fade". "Women's Cut" is chosen exactly when "women" occurs and "fade" does not. "Men's Cut" is chosen exactly when "men" occurs and neither "women" nor "fade" does. There is no service exactly when neither "fade" nor "men" occurs. Only the three service names can result. |
| Interpreter.WomenContainsMen | ity/app/main.py:202-205 | Every query containing "women" contains "men", so the "women" rule is tested first. |
| Interpreter.WomenRuleShadowsMen | ity/app/main.py:200-205 | Every query containing "women" also contains "men", so rule order decides: such a query never gets "Men's Cut", and without "fade" it gets "Women's Cut". |
| Interpreter.WhenOf | ity/app/main.py:206-209 | No timing exactly when none of "today", "asap" and "tomorrow" occurs. "today" results exactly when "today" or "asap" occurs, which therefore wins over "tomorrow". Only "today" and "tomorrow" can result. |
| Interpreter.StylistOf | ity/app/main.py:210-212 | No stylist and no error exactly when "with " is absent. Both an error and a stylist require "with " to occur. |
| Interpreter.StylistFailsOnlyOnBareWith | ity/app/main.py:211-212 | The stylist rule raises (IndexError in the source) if and only if "with " occurs and only whitespace follows its first occurrence. |
| Interpreter.StylistIsFirstWordAfterWith | ity/app/main.py:210-212 | An extracted stylist comes from the first occurrence of "with ": after it comes only whitespace up to position `n`, then a run of non-whitespace from `n` to `m` that ends at whitespace or at the end of the query. The stylist is that run with `.`, `,` and `!` stripped from both ends. |
| Interpreter.StylistIsPieceOfQuery | ity/app/main.py:211-212 | An extracted stylist is a substring of the query and contains no whitespace. It has no `.`, `,` or `!` at either end. |
| InterpreterExamples.FadeWithAlexUnder50 | ity/app/main.py:184-213 | "fade with Alex under 50" yields service "fade", stylist "alex" and budget 50.0. |
| InterpreterExamples.WomensCutTomorrow | ity/app/main.py:184-213 | "women's cut tomorrow" yields service "Women's Cut", when "tomorrow" and no budget. |
| WhenParser.NextDayAtNine | ity/app/main.py:139-141 | The result exists exactly when the next day is representable. It is then 09:00 of the day after `now`: later than `now`, and at most one day and nine hours after it. |
| WhenParser.ParseWhenText | ity/app/main.py:131-145 | Absent or empty text gives no bound. "now", "asap" and "today" (any case, padded) give `now`. "tomorrow" gives exactly `NextDayAtNine(now)`: 09:00 on the next day, or no bound when that day is not representable. Any other non-empty text gives exactly the fuzzy parser's result for the original text. A bound earlier than `now` can only come from the fuzzy parser. |
| WhenParser.InterpreterPhrasesUseClock | ity/app/main.py:136-141 | The two phrases the interpreter emits are resolved from the clock alone: "today" is `now`, and "tomorrow" is the same whichever fuzzy parser is supplied. |
| Scoring.StylistMatches | ity/app/main.py:153 | There is no match when either name is missing. A match needs both names and a non-empty request no longer than the stylist name, and the lower-cased request is a substring of the lower-cased stylist name. |
| Scoring.StylistMatchesPieceOfName | ity/app/main.py:153 | A request matches exactly when it is non-empty and equals some substring of the stylist name up to case. |
| Scoring.StylistExamplePieces | ity/app/main.py:153 | "al" and "LEX" both match the stylist "Alex". |
| Scoring.StylistMatchesOwnName | ity/app/main.py:153 | A non-empty stylist name matches a request that spells it in any case. |
| Scoring.StylistMatchIgnoresCase | ity/app/main.py:153 | The match is the same after lower-casing the requested name alone, the stylist name alone, or both. A matching request is never longer than the stylist name. |
| Scoring.StylistExampleAlex | ity/app/main.py:153 | The extracted stylist "alex" matches a slot whose stylist is "Alex". |
| Slots.SplitComposedId | ity/app/main.py:166 | Splitting `provider:internal_id` at its first colon recovers the provider and the rendered internal id, for colon-free provider names. |
| Slots.ComposedIdInjective | ity/app/main.py:166 | Equal composite ids imply equal provider and equal rendered internal id, for colon-free provider names. |
| Slots.NormalizeSlots | ity/app/main.py:160-181 | One output per input, in order. Each slot gets `score = compute_score(slot, search)`, each output carries that score and the id `provider:internal_id`, and the whole list equals `NormalizeAll`. |
| Slots.NormalizeCopiesFields | ity/app/main.py:164-179 | Normalization copies the eleven renamed fields unchanged (for example `provider_location_name` becomes `location_name` and `provider_url` becomes `book_url`) and keeps the computed score. |
| Slots.NormalizedIdsDistinct | ity/app/main.py:160-181 | Ids in one response are pairwise distinct when providers are colon-free and (provider, internal id) pairs are distinct. |
| Pipeline.Flatten | ity/app/main.py:249 | A slot is in the flattened list exactly when it is in one of the connector groups. |
| Pipeline.FlattenAppend | ity/app/main.py:249 | Flattening two runs of groups one after the other gives the two flattenings one after the other. |
| Pipeline.FlattenIsConcatenation | ity/app/main.py:249 | One group flattens to itself, and adding a group appends its slots in order. Multiplicities and lengths add up. |
| Pipeline.FilterSlots | ity/app/main.py:251-257 | The filter loop returns exactly `Kept(raw)`. |
| Pipeline.KeptSoundAndComplete | ity/app/main.py:251-257 | Every kept slot came from the input and passes both the budget check and the time check. Every input slot that passes both is kept. |
| Pipeline.PassingIndicesExact | ity/app/main.py:251-257 | The positions of passing slots are ascending and in range. A position is among them exactly when its slot passes. |
| Pipeline.KeptIsOrderedSubsequence | ity/app/main.py:251-257 | The kept list is the input read at the ascending passing positions: each passing slot once, in input order. |
| Pipeline.SliceTo | ity/app/main.py:261 | `s[:limit]` is a prefix of `s`. Its length is `min(limit, len)` for a non-negative limit, and `max(len + limit, 0)` for a negative one. |
| Ranking.StableSortSortsAndPermutes | ity/app/main.py:260 | The ranking is ordered by (score descending, price ascending, start ascending) and is a permutation of its input. |
| Ranking.StableSortIsStable | ity/app/main.py:260 | Slots with equal keys keep their input order. |
| Ranking.CharacterizesStableSort | ity/app/main.py:260 | Any ordered rearrangement that keeps equal-key slots in input order equals the model's ranking, so every stable sort gives the same list. |
| Ranking.InsertAt | ity/app/main.py:260 | Inserting a slot places it directly before the run of trailing elements that rank after it. |
| Ranking.InsertStep | ity/app/main.py:260 | One in-place insertion step turns `a[..i+1]` into the insertion of `a[i]` into `a[..i]` and leaves the rest of the array unchanged. |
| Ranking.SortSlots | ity/app/main.py:260 | The in-place sort leaves the array equal to the stable sort of its old contents. |
| Pipeline.RankedIsFilteredAndOrdered | ity/app/main.py:249-260 | Before the cut, the ranked list is ordered and a permutation of the normalized survivors. Each entry is the normalized, scored form of a slot that passed the filter. |
| Pipeline.TopResults | ity/app/main.py:249-261 | After the cut the list is still ordered and holds at most `limit` entries for a non-negative limit. Every entry is within budget and not before the bound. When the limit covers all survivors, nothing is dropped. |
| Pipeline.SearchHaircutsInternal | ity/app/main.py:240-261 | The results are the ranked survivors cut to `limit`, with every property of `TopResults`. The bound is the resolved `when` and the budget is `budget_max`. |

## Left out

- The FastAPI application is not part of this model: the routes (`home`, `api_search_haircuts`, `api_book`, `healthz`), the templates, `format_price` and `BookingRequest`.
- The mock connectors `connector_square_haircuts` and `connector_vagaro_haircuts` are left out. They only produce random slots, and the asyncio fan-out and `gather` add nothing to the logic. The pipeline takes the connectors' answers as its `groups` parameter.
- `datetime.utcnow()` is the parameter `now`. `dateutil.parser.parse(..., fuzzy=True)` is the parameter `fallback`, whose `None` stands for any exception it raises.
- `compute_score`: only its stylist condition is modelled (`Scoring.StylistMatches`). The price, early-start, fuzzy service match (rapidfuzz), proximity and rounding terms are floating-point arithmetic. The early-start term reads `datetime.utcnow()` on every call (ity/app/main.py:151), once per kept slot (ity/app/main.py:163), so in the source the score is not a function of the slot and the request alone. The model fixes one score function, that is one clock instant, for the whole call. The score is an arbitrary function parameter, and every pipeline property holds for every scoring function.
- Floats are exact reals. The model has no NaN, no -0.0, and no rounding in `price_cents / 100.0 > budget_max` or in the score comparison of the sort.
- Text handling covers ASCII only. `lower` maps A–Z, `isspace` is the ASCII whitespace set, and `isdigit` means '0'–'9'. Unicode case mapping, Unicode whitespace and Unicode digits are not modelled.
- Slots.NormalizeSlots: in place, the source assigns `s.score` on the caller's slot objects. The model returns the updated copies as `scored`; aliasing of those objects elsewhere is not modelled.
- Ranking.SortSlots: Python's `list.sort` is Timsort. The model sorts by insertion instead. `Ranking.CharacterizesStableSort` shows that any stable sort gives the same list, so only the algorithm differs.
- Slots.NormalizedIdsDistinct: the composite id `f"{provider}:{provider_internal_id}"` can collide when a provider name contains ':' or when one internal id is absent and another is the text "None". The lemma assumes neither happens.
- Pipeline.SearchHaircutsInternal: "at most `limit` results" is stated only for a non-negative limit. With a negative limit, Python's slice drops the last `-limit` results; `Pipeline.SliceTo` states that case.
- Interpreter.ScanBudget: the digit limit is CPython's default `int_max_str_digits` of 4300. A runtime that sets another limit, or turns it off, or a Python version without it, fails on other tokens or not at all.
- Code behaviour the model keeps as written:
  - the budget is the last qualifying token;
  - the stylist word is stripped of `.`, `,` and `!` at both ends;
  - `limit` may be any integer.
- WhenParser.Fallback: `dateutil` returns a timezone-aware `datetime` when the text names a zone (for example "friday 5pm UTC"). Then `s.start_time < parsed_when` (ity/app/main.py:255) compares a naive and an aware `datetime` and raises `TypeError` outside any `try`, so the search fails whenever some returned slot is within budget (slots over budget are skipped at ity/app/main.py:253-254 before the comparison). The fallback here returns a naive `Instant`, so `Pipeline.SearchHaircutsInternal` does not model that failure.

=== FILE: interpreter.dfy ===
/**
  `conversational_to_search`: free text to a `SearchRequest`, by ordered
  substring rules and a scan for a small dollar amount.
 */
module Interpreter {

  import opened Wrappers
  import opened Text
  import opened Slots

  /** The two ways `conversational_to_search` raises: `int(token)` refuses a digit
      string longer than `IntMaxStrDigits` (ValueError), and
      `q.split("with ", 1)[1].split()[0]` raises IndexError when only whitespace
      follows "with ". */
  datatype InterpretError = TooManyDigits | NoWordAfterWith

  /** CPython's default `sys.get_int_max_str_digits()`: `int()` raises ValueError on
      a decimal string with more digits than this. */
  const IntMaxStrDigits := 4300

  /** Numbers from this value up are not read as a budget. */
  const BudgetCeiling := 200
  /** Characters deleted before the text is split into budget tokens. */
  const BudgetNoise: set<char> := {'$', ','}
  /** Characters stripped from both ends of the stylist word. */
  const StylistPunctuation: set<char> := {'.', ',', '!'}
  const StylistMarker := "with "

  /** The tokens of `q.replace("$", "").replace(",", "").split()`. */
  function Tokens(q: string): seq<string> {
    Split(RemoveChars(q, BudgetNoise))
  }

  /** A token the budget loop accepts: all digits, value below the ceiling. */
  predicate IsBudgetToken(t: string) {
    IsDigits(t) && DecimalValue(t) < BudgetCeiling
  }

  /** A token the budget loop reads with `int()` and on which `int()` raises. */
  predicate IsOverlongNumber(t: string) {
    IsDigits(t) && |t| > IntMaxStrDigits
  }

  /** The budget loop raises on these tokens. */
  predicate HasOverlongNumber(tokens: seq<string>) {
    exists i :: 0 <= i < |tokens| && IsOverlongNumber(tokens[i])
  }

  /** The budget the loop leaves behind after reading `tokens`, when it does not raise. */
  function BudgetOf(tokens: seq<string>): Option<real> {
    if tokens == [] then None
    else if IsBudgetToken(tokens[|tokens| - 1]) then Some(DecimalValue(tokens[|tokens| - 1]) as real)
    else BudgetOf(tokens[..|tokens| - 1])
  }

  /** No budget exactly when no token qualifies. */
  lemma {:induction false} BudgetNoneIffNoToken(tokens: seq<string>)
    ensures BudgetOf(tokens).None? <==> forall i :: 0 <= i < |tokens| ==> !IsBudgetToken(tokens[i])
  {
    if tokens != [] {
      var init := tokens[..|tokens| - 1];
      BudgetNoneIffNoToken(init);
      assert forall i :: 0 <= i < |init| ==> init[i] == tokens[i];
    }
  }

  /** A budget is the value of a qualifying token with no qualifying token after it. */
  lemma {:induction false} BudgetIsLastToken(tokens: seq<string>)
    requires BudgetOf(tokens).Some?
    ensures exists i :: && 0 <= i < |tokens| && IsBudgetToken(tokens[i])
                        && BudgetOf(tokens).value == DecimalValue(tokens[i]) as real
                        && forall j :: i < j < |tokens| ==> !IsBudgetToken(tokens[j])
  {
    var last := |tokens| - 1;
    if !IsBudgetToken(tokens[last]) {
      var init := tokens[..last];
      BudgetIsLastToken(init);
      var i :| && 0 <= i < |init| && IsBudgetToken(init[i])
               && BudgetOf(init).value == DecimalValue(init[i]) as real
               && forall j :: i < j < |init| ==> !IsBudgetToken(init[j]);
      assert tokens[i] == init[i];
      forall j | i < j < |tokens|
        ensures !IsBudgetToken(tokens[j])
      {
        if j < last {
          assert tokens[j] == init[j];
        }
      }
    }
  }

  /** The budget is the value of the last qualifying token, so it lies in
      [0, 200), and there is none exactly when no token qualifies. */
  lemma {:induction false} BudgetIsLastSmallNumber(tokens: seq<string>)
    ensures BudgetOf(tokens).None? <==> forall i :: 0 <= i < |tokens| ==> !IsBudgetToken(tokens[i])
    ensures BudgetOf(tokens).Some? ==>
              && 0.0 <= BudgetOf(tokens).value < BudgetCeiling as real
              && exists i :: && 0 <= i < |tokens| && IsBudgetToken(tokens[i])
                             && BudgetOf(tokens).value == DecimalValue(tokens[i]) as real
                             && forall j :: i < j < |tokens| ==> !IsBudgetToken(tokens[j])
  {
    BudgetNoneIffNoToken(tokens);
    if BudgetOf(tokens).Some? {
      BudgetIsLastToken(tokens);
    }
  }

  /** The budget loop of `conversational_to_search`: it raises at the first all-digit
      token that `int()` refuses, and otherwise leaves `BudgetOf(tokens)`. */
  method ScanBudget(tokens: seq<string>) returns (r: Result<Option<real>, InterpretError>)
    ensures r.Err? <==> HasOverlongNumber(tokens)
    ensures r.Err? ==> r.error == TooManyDigits
    ensures r.Ok? ==> r.value == BudgetOf(tokens)
  {
    var budget := None;
    for i := 0 to |tokens|
      invariant budget == BudgetOf(tokens[..i])
      invariant forall j :: 0 <= j < i ==> !IsOverlongNumber(tokens[j])
    {
      assert tokens[..i + 1][..i] == tokens[..i];
      if IsDigits(tokens[i]) {
        if |tokens[i]| > IntMaxStrDigits {
          assert IsOverlongNumber(tokens[i]);
          return Err(TooManyDigits);
        }
        var value := DecimalValue(tokens[i]);
        if value < BudgetCeiling {
          budget := Some(value as real);
        }
      }
    }
    assert tokens[..|tokens|] == tokens;
    r := Ok(budget);
  }

  /** The service rule, in priority order. Since "women" contains "men", the query
      has no service exactly when it mentions neither "fade" nor "men", and it gets
      "Men's Cut" only when "men" occurs outside any "women". */
  function ServiceOf(q: string): (r: Option<string>)
    ensures r == Some("fade") <==> Contains(q, "fade")
    ensures r.None? <==> !Contains(q, "fade") && !Contains(q, "men")
    ensures r == Some("Women's Cut") <==> !Contains(q, "fade") && Contains(q, "women")
    ensures r == Some("Men's Cut") <==> !Contains(q, "fade") && !Contains(q, "women") && Contains(q, "men")
    ensures r.Some? ==> r.value in {"fade", "Women's Cut", "Men's Cut"}
  {
    WomenContainsMen(q);
    if Contains(q, "fade") then Some("fade")
    else if Contains(q, "women") then Some("Women's Cut")
    else if Contains(q, "men") then Some("Men's Cut")
    else None
  }

  /** Every occurrence of "women" holds an occurrence of "men". */
  lemma WomenContainsMen(q: string)
    ensures Contains(q, "women") ==> Contains(q, "men")
  {
    if Contains(q, "women") {
      var i: nat :| i <= |q| && OccursAt(q, "women", i);
      assert q[i + 2..i + 5] == q[i..i + 5][2..];
      assert OccursAt(q, "men", i + 2);
    }
  }

  /** Every query that mentions "women" also mentions "men", so the order of the rules
      decides: such a query never gets "Men's Cut". */
  lemma WomenRuleShadowsMen(q: string)
    requires Contains(q, "women")
    ensures Contains(q, "men")
    ensures ServiceOf(q) != Some("Men's Cut")
    ensures !Contains(q, "fade") ==> ServiceOf(q) == Some("Women's Cut")
  {
    WomenContainsMen(q);
  }

  /** The timing rule: "today" or "asap" before "tomorrow". Only the two phrases the
      time parser resolves from the clock are ever produced. */
  function WhenOf(q: string): (r: Option<string>)
    ensures r.None? <==> !Contains(q, "today") && !Contains(q, "asap") && !Contains(q, "tomorrow")
    ensures r == Some("today") <==> Contains(q, "today") || Contains(q, "asap")
    ensures r.Some? ==> r.value == "today" || r.value == "tomorrow"
  {
    if Contains(q, "today") || Contains(q, "asap") then Some("today")
    else if Contains(q, "tomorrow") then Some("tomorrow")
    else None
  }

  /** The stylist rule: the first word after the first "with ", trimmed of `.,!`.
      Without "with " there is no stylist and no error. */
  function StylistOf(q: string): (r: Result<Option<string>, InterpretError>)
    ensures r == Ok(None) <==> !Contains(q, StylistMarker)
    ensures r.Err? ==> Contains(q, StylistMarker)
    ensures r.Ok? && r.value.Some? ==> Contains(q, StylistMarker)
  {
    match FindFirst(q, StylistMarker)
    case None => Ok(None)
    case Some(i) =>
      var words := Split(q[i + |StylistMarker|..]);
      if words == [] then Err(NoWordAfterWith)
      else Ok(Some(Strip(words[0], StylistPunctuation)))
  }

  /** The stylist rule fails exactly when "with " occurs and only whitespace follows
      its first occurrence. */
  lemma StylistFailsOnlyOnBareWith(q: string)
    ensures StylistOf(q).Err? <==>
              exists i: nat | i <= |q| ::
                && OccursAt(q, StylistMarker, i)
                && (forall j: nat :: j < i ==> !OccursAt(q, StylistMarker, j))
                && forall k :: i + |StylistMarker| <= k < |q| ==> q[k] in Whitespace
  {
    match FindFirst(q, StylistMarker)
    case None =>
    case Some(i) =>
      var rest := q[i + |StylistMarker|..];
      SplitEmpty(rest);
      assert forall k :: 0 <= k < |rest| ==> rest[k] == q[i + |StylistMarker| + k];
  }

  /** Stripping `.,!` from a whitespace-free word that occurs in `s` leaves a
      whitespace-free piece of `s`. */
  lemma StrippedWordOccurs(s: string, w: string)
    requires Contains(s, w) && forall k :: 0 <= k < |w| ==> w[k] !in Whitespace
    ensures var st := Strip(w, StylistPunctuation);
            && Contains(s, st)
            && (forall k :: 0 <= k < |st| ==> st[k] !in Whitespace)
            && (st == [] || (st[0] !in StylistPunctuation && st[|st| - 1] !in StylistPunctuation))
  {
    var st := Strip(w, StylistPunctuation);
    StripTrimsBothEnds(w, StylistPunctuation);
    var a: nat :| a <= |w| && OccursAt(w, st, a);
    var b: nat :| b <= |s| && OccursAt(s, w, b);
    OccursWithin(s, w, b, st, a);
    forall k | 0 <= k < |st| ensures st[k] !in Whitespace {
      assert st[k] == w[a + k];
    }
  }

  /** An extracted stylist is a whitespace-free piece of the query with no `.`, `,`
      or `!` at either end. */
  lemma StylistIsPieceOfQuery(q: string)
    requires StylistOf(q).Ok? && StylistOf(q).value.Some?
    ensures var st := StylistOf(q).value.value;
            && Contains(q, st)
            && (forall k :: 0 <= k < |st| ==> st[k] !in Whitespace)
            && (st == [] || (st[0] !in StylistPunctuation && st[|st| - 1] !in StylistPunctuation))
  {
    var i := FindFirst(q, StylistMarker).value;
    var rest := q[i + |StylistMarker|..];
    var w := Split(rest)[0];
    SplitWordsAreWords(rest);
    SplitWordsOccur(rest);
    StrippedWordOccurs(rest, w);
    var st := Strip(w, StylistPunctuation);
    var c: nat :| c <= |rest| && OccursAt(rest, st, c);
    OccursInSuffix(q, i + |StylistMarker|, st, c);
  }

  /** Which word becomes the stylist: the first run of non-whitespace characters
      after the first "with ", with `.`, `,` and `!` stripped from both ends. */
  lemma StylistIsFirstWordAfterWith(q: string)
    requires StylistOf(q).Ok? && StylistOf(q).value.Some?
    ensures exists i: nat, n: nat, m: nat ::
              && i + |StylistMarker| <= n < m <= |q|
              && OccursAt(q, StylistMarker, i)
              && (forall j: nat :: j < i ==> !OccursAt(q, StylistMarker, j))
              && (forall k :: i + |StylistMarker| <= k < n ==> q[k] in Whitespace)
              && (forall k :: n <= k < m ==> q[k] !in Whitespace)
              && (m == |q| || q[m] in Whitespace)
              && StylistOf(q).value.value == Strip(q[n..m], StylistPunctuation)
  {
    var i := FindFirst(q, StylistMarker).value;
    var start := i + |StylistMarker|;
    var word := Split(q[start..])[0];
    assert StylistOf(q).value.value == Strip(word, StylistPunctuation);
    var n, m := FirstWordBounds(q, start);
    assert && i + |StylistMarker| <= n < m <= |q|
           && OccursAt(q, StylistMarker, i)
           && (forall j: nat :: j < i ==> !OccursAt(q, StylistMarker, j))
           && (forall k :: i + |StylistMarker| <= k < n ==> q[k] in Whitespace)
           && (forall k :: n <= k < m ==> q[k] !in Whitespace)
           && (m == |q| || q[m] in Whitespace)
           && StylistOf(q).value.value == Strip(q[n..m], StylistPunctuation);
  }

  /** `conversational_to_search(query)`. */
  method ConversationalToSearch(query: Option<string>) returns (r: Result<SearchRequest, InterpretError>)
    ensures query.None? || query.value == [] ==> r == Ok(DefaultRequest)
    ensures query.Some? && query.value != [] ==>
              var q := Lower(query.value);
              && (r.Err? <==> HasOverlongNumber(Tokens(q)) || StylistOf(q).Err?)
              && (HasOverlongNumber(Tokens(q)) ==> r == Err(TooManyDigits))
              && (r.Ok? ==> r.value == SearchRequest(query, WhenOf(q), BudgetOf(Tokens(q)), None,
                                                    ServiceOf(q), StylistOf(q).value, None, None, DefaultLimit))
  {
    if query.None? || query.value == [] {
      return Ok(DefaultRequest);
    }
    var q := Lower(query.value);
    var budget := ScanBudget(Tokens(q));
    if budget.Err? {
      return Err(budget.error);
    }
    var service := ServiceOf(q);
    var when := WhenOf(q);
    var stylist := StylistOf(q);
    if stylist.Err? {
      return Err(stylist.error);
    }
    r := Ok(SearchRequest(query, when, budget.value, None, service, stylist.value, None, None, DefaultLimit));
  }
}

=== FILE: interpreter_examples.dfy ===
/**
  Two queries worked through the interpreter's rules. The query texts are passed
  as parameters fixed by `requires`, which keeps the verifier from unfolding the
  string functions on literals all at once.
 */
module InterpreterExamples {

  import opened Wrappers
  import opened Text
  import opened Interpreter

  // ---- Helpers for literal phrases ----
  // A quantifier over the characters of a string literal is expensive for the
  // verifier, while a predicate that walks a literal by index unfolds completely.
  // `PlainFrom` and `PlainWordsFrom` are such walks; the lemmas below turn them into
  // the quantified facts the general `Text` lemmas need.

  /** Each word of a phrase is non-empty and holds neither whitespace nor a
      character the interpreter deletes. */
  predicate PlainWords(words: seq<string>) {
    forall k :: 0 <= k < |words| ==>
      words[k] != [] &&
      forall i :: 0 <= i < |words[k]| ==> words[k][i] !in Whitespace && words[k][i] !in BudgetNoise
  }

  /** From index `i` on, no character of `s` is whitespace or deleted by the
      interpreter; indexing from a literal position lets it unfold on a literal. */
  predicate PlainFrom(s: string, i: nat)
    decreases |s| - i
  {
    i >= |s| || (s[i] !in Whitespace && s[i] !in BudgetNoise && PlainFrom(s, i + 1))
  }

  lemma {:induction false} PlainFromAll(s: string, i: nat)
    requires PlainFrom(s, i)
    ensures forall j :: i <= j < |s| ==> s[j] !in Whitespace && s[j] !in BudgetNoise
    decreases |s| - i
  {
    if i < |s| {
      PlainFromAll(s, i + 1);
    }
  }

  /** From index `k` on, every word is non-empty and plain. */
  predicate PlainWordsFrom(words: seq<string>, k: nat)
    decreases |words| - k
  {
    k >= |words| || (words[k] != [] && PlainFrom(words[k], 0) && PlainWordsFrom(words, k + 1))
  }

  lemma {:induction false} PlainWordsFromAll(words: seq<string>, k: nat)
    requires PlainWordsFrom(words, k)
    ensures forall j :: k <= j < |words| ==>
              words[j] != [] &&
              forall i :: 0 <= i < |words[j]| ==> words[j][i] !in Whitespace && words[j][i] !in BudgetNoise
    decreases |words| - k
  {
    if k < |words| {
      PlainFromAll(words[k], 0);
      PlainWordsFromAll(words, k + 1);
    }
  }

  /** A phrase of plain words separated by single spaces tokenizes into its words. */
  lemma {:induction false} TokensOfPlainPhrase(words: seq<string>)
    requires PlainWordsFrom(words, 0)
    ensures Tokens(JoinWords(words)) == words
  {
    PlainWordsFromAll(words, 0);
    CleanPhrase(words);
    assert PlainWords(words) ==> forall k :: 0 <= k < |words| ==>
      words[k] != [] && forall i :: 0 <= i < |words[k]| ==> words[k][i] !in Whitespace;
    SplitJoinWords(words);
  }

  lemma {:induction false} CleanPhrase(words: seq<string>)
    requires PlainWords(words)
    ensures RemoveChars(JoinWords(words), BudgetNoise) == JoinWords(words)
  {
    if words != [] {
      RemoveCharsNone(words[0], BudgetNoise);
      if |words| > 1 {
        assert PlainWords(words[1..]) by {
          assert forall k :: 0 <= k < |words[1..]| ==> words[1..][k] == words[k + 1];
        }
        CleanPhrase(words[1..]);
        RemoveCharsNone(" ", BudgetNoise);
        RemoveCharsAppend(words[0], " ", BudgetNoise);
        RemoveCharsAppend(words[0] + " ", JoinWords(words[1..]), BudgetNoise);
      }
    }
  }

  // ---- "fade with Alex under 50" ----

  lemma LowerFadeQuery(query: string)
    requires query == "fade with Alex under 50"
    ensures Lower(query) == "fade with alex under 50"
  {
  }

  lemma FiftyIsBudget(tokens: seq<string>)
    requires |tokens| == 5 && tokens[4] == "50"
    ensures BudgetOf(tokens) == Some(50.0)
  {
    var t := tokens[4];
    var five := t[..1];
    assert five == "5";
    assert five[..0] == [];
    assert DecimalValue(five) == 10 * DecimalValue([]) + 5;
    assert DecimalValue(t) == 10 * DecimalValue(five) + 0;
  }

  lemma FadeQueryJoined(q: string)
    requires q == "fade with alex under 50"
    ensures JoinWords(["fade", "with", "alex", "under", "50"]) == q
  {
  }

  lemma FadeQueryTokens(q: string)
    requires q == "fade with alex under 50"
    ensures Tokens(q) == ["fade", "with", "alex", "under", "50"]
  {
    FadeQueryJoined(q);
    TokensOfPlainPhrase(["fade", "with", "alex", "under", "50"]);
  }

  lemma FadeQueryBudget(q: string)
    requires q == "fade with alex under 50"
    ensures BudgetOf(Tokens(q)) == Some(50.0)
  {
    FadeQueryTokens(q);
    FiftyIsBudget(Tokens(q));
  }

  lemma FadeQueryMarker(q: string)
    requires q == "fade with alex under 50"
    ensures FindFirst(q, StylistMarker) == Some(5)
  {
    assert OccursAt(q, StylistMarker, 5);
    forall j: nat | j < 5 ensures !OccursAt(q, StylistMarker, j) {
      assert q[j..j + 5][0] == q[j];
    }
  }

  lemma AlexIsFirstWord(rest: string)
    requires rest == "alex under 50"
    ensures Split(rest) != [] && Strip(Split(rest)[0], StylistPunctuation) == "alex"
  {
    SplitFirstWord(rest, 4);
    var w := Split(rest)[0];
    assert w == "alex";
    StripKeeps(w, StylistPunctuation);
  }

  lemma FadeQueryService(q: string)
    requires q == "fade with alex under 50"
    ensures ServiceOf(q) == Some("fade")
    ensures StylistOf(q) == Ok(Some("alex"))
  {
    assert OccursAt(q, "fade", 0);
    FadeQueryMarker(q);
    AlexIsFirstWord(q[10..]);
  }

  /** "fade with Alex under 50" asks for a fade with stylist "alex" and a $50 budget. */
  lemma FadeWithAlexUnder50(query: string)
    requires query == "fade with Alex under 50"
    ensures var q := Lower(query);
            && ServiceOf(q) == Some("fade")
            && StylistOf(q) == Ok(Some("alex"))
            && BudgetOf(Tokens(q)) == Some(50.0)
  {
    LowerFadeQuery(query);
    FadeQueryService(Lower(query));
    FadeQueryBudget(Lower(query));
  }

  // ---- "women's cut tomorrow" ----

  lemma WomensQueryJoined(q: string)
    requires q == "women's cut tomorrow"
    ensures JoinWords(["women's", "cut", "tomorrow"]) == q
  {
  }

  lemma WomensQueryTokens(q: string)
    requires q == "women's cut tomorrow"
    ensures Tokens(q) == ["women's", "cut", "tomorrow"]
  {
    WomensQueryJoined(q);
    TokensOfPlainPhrase(["women's", "cut", "tomorrow"]);
  }

  lemma NoNumberNoBudget(tokens: seq<string>)
    requires forall i :: 0 <= i < |tokens| ==> tokens[i] != [] && !IsDigit(tokens[i][0])
    ensures BudgetOf(tokens) == None
  {
    BudgetIsLastSmallNumber(tokens);
  }

  lemma WomensQueryBudget(q: string)
    requires q == "women's cut tomorrow"
    ensures BudgetOf(Tokens(q)) == None
  {
    WomensQueryTokens(q);
    NoNumberNoBudget(Tokens(q));
  }

  lemma WomensQueryRules(q: string)
    requires q == "women's cut tomorrow"
    ensures ServiceOf(q) == Some("Women's Cut")
    ensures WhenOf(q) == Some("tomorrow")
  {
    AbsentInitial(q, "fade");
    assert OccursAt(q, "women", 0);
    AbsentInitial(q, "asap");
    forall i: nat | i <= |q| ensures !OccursAt(q, "today", i) {
      if i + 5 <= |q| {
        assert q[i..i + 5][0] == q[i] && q[i..i + 5][1] == q[i + 1] && q[i..i + 5][2] == q[i + 2];
      }
    }
    assert OccursAt(q, "tomorrow", 12);
  }

  /** "women's cut tomorrow" asks for a women's cut tomorrow, with no budget. */
  lemma WomensCutTomorrow(query: string)
    requires query == "women's cut tomorrow"
    ensures var q := Lower(query);
            && ServiceOf(q) == Some("Women's Cut")
            && WhenOf(q) == Some("tomorrow")
            && BudgetOf(Tokens(q)) == None
  {
    assert Lower(query) == query;
    WomensQueryRules(Lower(query));
    WomensQueryBudget(Lower(query));
  }
}

=== FILE: pipeline.dfy ===
/**
  `search_haircuts_internal` from the moment the connectors have answered:
  resolve the time bound, flatten the result groups, filter by budget and time,
  normalize, rank and cut to `limit`.
 */
module Pipeline {

  import opened Wrappers
  import opened Slots
  import opened WhenParser
  import opened Ranking

  /** `[slot for group in groups for slot in group]`. */
  function Flatten(groups: seq<seq<AppointmentSlot>>): (r: seq<AppointmentSlot>)
    ensures forall x :: x in r <==> exists g :: g in groups && x in g
  {
    if groups == [] then [] else groups[0] + Flatten(groups[1..])
  }

  /** Flattening a concatenation of group lists concatenates their flattenings. */
  lemma {:induction false} FlattenAppend(a: seq<seq<AppointmentSlot>>, b: seq<seq<AppointmentSlot>>)
    ensures Flatten(a + b) == Flatten(a) + Flatten(b)
  {
    if a == [] {
      assert a + b == b;
    } else {
      assert (a + b)[1..] == a[1..] + b;
      FlattenAppend(a[1..], b);
    }
  }

  /** The comprehension keeps every slot of every group, in group order and within
      a group in the connector's order: it is the concatenation of the groups. */
  lemma {:induction false} FlattenIsConcatenation(groups: seq<seq<AppointmentSlot>>, g: seq<AppointmentSlot>)
    ensures Flatten([g]) == g
    ensures Flatten(groups + [g]) == Flatten(groups) + g
    ensures multiset(Flatten(groups + [g])) == multiset(Flatten(groups)) + multiset(g)
    ensures |Flatten(groups + [g])| == |Flatten(groups)| + |g|
  {
    assert [g][1..] == [];
    assert Flatten([g]) == g + Flatten([]);
    FlattenAppend(groups, [g]);
  }

  /** The budget check: kept unless a budget is set and `price_cents / 100 > budget_max`. */
  predicate WithinBudget(s: AppointmentSlot, budgetMax: Option<real>) {
    budgetMax.None? || !((s.priceCents as real) / 100.0 > budgetMax.value)
  }

  /** The time check: kept unless a bound was resolved and the slot starts before it. */
  predicate NotBefore(s: AppointmentSlot, bound: Option<Instant>) {
    bound.None? || !(s.startTime < bound.value)
  }

  predicate Passes(s: AppointmentSlot, budgetMax: Option<real>, bound: Option<Instant>) {
    WithinBudget(s, budgetMax) && NotBefore(s, bound)
  }

  /** What the filter loop appends, in order. */
  function Kept(raw: seq<AppointmentSlot>, budgetMax: Option<real>, bound: Option<Instant>): (r: seq<AppointmentSlot>)
    ensures |r| <= |raw|
  {
    if raw == [] then []
    else
      var last := raw[|raw| - 1];
      Kept(raw[..|raw| - 1], budgetMax, bound) + (if Passes(last, budgetMax, bound) then [last] else [])
  }

  /** Every kept slot passes both checks, and every slot that passes both is kept. */
  lemma {:induction false} KeptSoundAndComplete(raw: seq<AppointmentSlot>, budgetMax: Option<real>, bound: Option<Instant>)
    ensures forall x :: x in Kept(raw, budgetMax, bound) ==> x in raw && Passes(x, budgetMax, bound)
    ensures forall x :: x in raw && Passes(x, budgetMax, bound) ==> x in Kept(raw, budgetMax, bound)
  {
    if raw != [] {
      var init := raw[..|raw| - 1];
      KeptSoundAndComplete(init, budgetMax, bound);
      assert raw == init + [raw[|raw| - 1]];
    }
  }

  /** The positions of the slots that pass both checks, ascending. */
  function PassingIndices(raw: seq<AppointmentSlot>, budgetMax: Option<real>, bound: Option<Instant>): seq<nat> {
    if raw == [] then []
    else
      PassingIndices(raw[..|raw| - 1], budgetMax, bound)
      + (if Passes(raw[|raw| - 1], budgetMax, bound) then [|raw| - 1] else [])
  }

  /** The passing positions are ascending, in range, and are exactly the positions
      of slots that pass both checks. */
  lemma {:induction false} PassingIndicesExact(raw: seq<AppointmentSlot>, budgetMax: Option<real>, bound: Option<Instant>)
    ensures var idx := PassingIndices(raw, budgetMax, bound);
            && (forall k :: 0 <= k < |idx| ==> idx[k] < |raw|)
            && (forall k, l :: 0 <= k < l < |idx| ==> idx[k] < idx[l])
            && (forall i :: 0 <= i < |raw| ==> (i in idx <==> Passes(raw[i], budgetMax, bound)))
  {
    if raw != [] {
      var init := raw[..|raw| - 1];
      PassingIndicesExact(init, budgetMax, bound);
      var idx := PassingIndices(raw, budgetMax, bound);
      var idx0 := PassingIndices(init, budgetMax, bound);
      assert idx == idx0 + (if Passes(raw[|raw| - 1], budgetMax, bound) then [|raw| - 1] else []);
      forall i | 0 <= i < |init| ensures i in idx <==> Passes(raw[i], budgetMax, bound) {
        assert raw[i] == init[i];
      }
    }
  }

  /** `Kept` reads `raw` at the passing positions. */
  lemma {:induction false} KeptReadsPassingIndices(raw: seq<AppointmentSlot>, budgetMax: Option<real>, bound: Option<Instant>)
    ensures var kept, idx := Kept(raw, budgetMax, bound), PassingIndices(raw, budgetMax, bound);
            && |kept| == |idx|
            && forall k :: 0 <= k < |idx| ==> idx[k] < |raw| && kept[k] == raw[idx[k]]
  {
    if raw != [] {
      var init, last := raw[..|raw| - 1], raw[|raw| - 1];
      KeptReadsPassingIndices(init, budgetMax, bound);
      var kept0, idx0 := Kept(init, budgetMax, bound), PassingIndices(init, budgetMax, bound);
      var kept, idx := Kept(raw, budgetMax, bound), PassingIndices(raw, budgetMax, bound);
      if Passes(last, budgetMax, bound) {
        assert kept == kept0 + [last] && idx == idx0 + [|raw| - 1];
      } else {
        assert kept == kept0 && idx == idx0;
      }
      forall k | 0 <= k < |idx0| ensures idx[k] < |raw| && kept[k] == raw[idx[k]] {
        assert kept[k] == kept0[k] && idx[k] == idx0[k];
        assert init[idx0[k]] == raw[idx0[k]];
      }
    }
  }

  /** The filter keeps precisely the passing slots, each once, in their original
      relative order: `Kept` is `raw` read at the ascending passing positions. */
  lemma {:induction false} KeptIsOrderedSubsequence(raw: seq<AppointmentSlot>, budgetMax: Option<real>, bound: Option<Instant>)
    ensures var kept, idx := Kept(raw, budgetMax, bound), PassingIndices(raw, budgetMax, bound);
            && |kept| == |idx|
            && (forall k :: 0 <= k < |idx| ==> idx[k] < |raw| && kept[k] == raw[idx[k]])
            && (forall k, l :: 0 <= k < l < |idx| ==> idx[k] < idx[l])
            && (forall i :: 0 <= i < |raw| ==> (i in idx <==> Passes(raw[i], budgetMax, bound)))
  {
    PassingIndicesExact(raw, budgetMax, bound);
    KeptReadsPassingIndices(raw, budgetMax, bound);
  }

  /** The filter loop of `search_haircuts_internal`. */
  method FilterSlots(raw: seq<AppointmentSlot>, budgetMax: Option<real>, bound: Option<Instant>)
    returns (filtered: seq<AppointmentSlot>)
    ensures filtered == Kept(raw, budgetMax, bound)
  {
    filtered := [];
    for i := 0 to |raw|
      invariant filtered == Kept(raw[..i], budgetMax, bound)
    {
      assert raw[..i + 1][..i] == raw[..i];
      var s := raw[i];
      if budgetMax.Some? && (s.priceCents as real) / 100.0 > budgetMax.value {
        continue;
      }
      if bound.Some? && s.startTime < bound.value {
        continue;
      }
      filtered := filtered + [s];
    }
    assert raw[..|raw|] == raw;
  }

  /** Python's `s[:limit]`: the first `limit` elements, or for a negative `limit` all
      but the last `-limit`. */
  function SliceTo<T>(s: seq<T>, limit: int): (r: seq<T>)
    ensures |r| <= |s| && r == s[..|r|]
    ensures limit >= 0 ==> |r| == if limit < |s| then limit else |s|
    ensures limit < 0 ==> |r| == if |s| + limit > 0 then |s| + limit else 0
  {
    if limit >= 0 then (if limit < |s| then s[..limit] else s)
    else (if |s| + limit > 0 then s[..|s| + limit] else [])
  }

  /** The ranked list before the cut: filter, normalize, sort. */
  function Ranked(groups: seq<seq<AppointmentSlot>>, search: SearchRequest, bound: Option<Instant>,
                  scoreOf: ScoreFunction): seq<NormalizedSlot>
  {
    StableSort(NormalizeAll(Kept(Flatten(groups), search.budgetMax, bound), search, scoreOf))
  }

  /** Everything ranked passed the filter, carries its slot's score, and the whole is
      ordered and a permutation of the normalized survivors. */
  lemma RankedIsFilteredAndOrdered(groups: seq<seq<AppointmentSlot>>, search: SearchRequest,
                                   bound: Option<Instant>, scoreOf: ScoreFunction)
    ensures var ranked := Ranked(groups, search, bound, scoreOf);
            var survivors := Kept(Flatten(groups), search.budgetMax, bound);
            && Sorted(ranked)
            && multiset(ranked) == multiset(NormalizeAll(survivors, search, scoreOf))
            && |ranked| == |survivors|
            && forall r :: r in ranked ==>
                 exists s :: s in survivors && Passes(s, search.budgetMax, bound)
                             && r == Normalize(Scored(s, search, scoreOf))
  {
    var survivors := Kept(Flatten(groups), search.budgetMax, bound);
    KeptSoundAndComplete(Flatten(groups), search.budgetMax, bound);
    var normalized := NormalizeAll(survivors, search, scoreOf);
    StableSortSortsAndPermutes(normalized);
    var ranked := Ranked(groups, search, bound, scoreOf);
    assert |ranked| == |multiset(ranked)| == |normalized|;
    forall r | r in ranked
      ensures exists s :: s in survivors && Passes(s, search.budgetMax, bound)
                          && r == Normalize(Scored(s, search, scoreOf))
    {
      assert r in multiset(normalized);
      var i :| 0 <= i < |normalized| && normalized[i] == r;
      assert survivors[i] in survivors;
    }
  }

  /** What the cut keeps of the ranking: an ordered prefix of at most `limit`
      results, all within budget and not before the bound, and everything when the
      limit covers all survivors. */
  lemma TopResults(groups: seq<seq<AppointmentSlot>>, search: SearchRequest,
                   bound: Option<Instant>, scoreOf: ScoreFunction)
    ensures var results := SliceTo(Ranked(groups, search, bound, scoreOf), search.limit);
            var survivors := Kept(Flatten(groups), search.budgetMax, bound);
            && Sorted(results)
            && (search.limit >= 0 ==> |results| <= search.limit)
            && (search.limit >= |survivors| ==>
                  multiset(results) == multiset(NormalizeAll(survivors, search, scoreOf)))
            && forall r :: r in results ==>
                 && (search.budgetMax.Some? ==> (r.priceCents as real) / 100.0 <= search.budgetMax.value)
                 && (bound.Some? ==> r.startTime >= bound.value)
  {
    var ranked := Ranked(groups, search, bound, scoreOf);
    var results := SliceTo(ranked, search.limit);
    RankedIsFilteredAndOrdered(groups, search, bound, scoreOf);
    assert forall r :: r in results ==> r in ranked;
  }

  /** `search_haircuts_internal(search)` given the connectors' answers `groups`,
      the clock reading `now`, the fuzzy date parser and the scoring function. */
  method SearchHaircutsInternal(search: SearchRequest, groups: seq<seq<AppointmentSlot>>, now: Instant,
                                fallback: Fallback, scoreOf: ScoreFunction)
    returns (results: seq<NormalizedSlot>)
    ensures var bound := ParseWhenText(search.when, now, fallback);
            results == SliceTo(Ranked(groups, search, bound, scoreOf), search.limit)
    ensures Sorted(results)
    ensures search.limit >= 0 ==> |results| <= search.limit
    ensures var survivors := Kept(Flatten(groups), search.budgetMax, ParseWhenText(search.when, now, fallback));
            search.limit >= |survivors| ==> multiset(results) == multiset(NormalizeAll(survivors, search, scoreOf))
    ensures forall r :: r in results ==>
              && (search.budgetMax.Some? ==> (r.priceCents as real) / 100.0 <= search.budgetMax.value)
              && (ParseWhenText(search.when, now, fallback).Some? ==>
                    r.startTime >= ParseWhenText(search.when, now, fallback).value)
  {
    var bound := ParseWhenText(search.when, now, fallback);
    var raw := Flatten(groups);
    var filtered := FilterSlots(raw, search.budgetMax, bound);
    var normalized, _ := NormalizeSlots(filtered, search, scoreOf);
    var a := new NormalizedSlot[|normalized|](i requires 0 <= i < |normalized| => normalized[i]);
    assert a[..] == normalized;
    SortSlots(a);
    results := SliceTo(a[..], search.limit);
    TopResults(groups, search, bound, scoreOf);
  }
}

=== FILE: ranking.dfy ===
/**
  The ranking step: `normalized.sort(key=lambda x: (-x.score, x.price_cents, x.start_time))`,
  an in-place stable sort. `StableSort` specifies it by insertion, the lemmas show
  that result is ordered, a permutation and stable, and that it is the only such
  arrangement, so any stable sorting algorithm yields it.
 */
module Ranking {

  import opened Slots

  /** The sort key `(-score, price_cents, start_time)`; `x` ranks before `y` when its
      key is lexicographically smaller (`Before`), and slots with equal keys are tied. */
  function Key(x: NormalizedSlot): (real, int, int) {
    (-x.score, x.priceCents, x.startTime)
  }

  /** Strictly earlier in the ranking: higher score, then lower price, then earlier start. */
  predicate Before(x: NormalizedSlot, y: NormalizedSlot) {
    || x.score > y.score
    || (x.score == y.score && x.priceCents < y.priceCents)
    || (x.score == y.score && x.priceCents == y.priceCents && x.startTime < y.startTime)
  }

  predicate Sorted(s: seq<NormalizedSlot>) {
    forall i, j :: 0 <= i < j < |s| ==> !Before(s[j], s[i])
  }

  /** Inserts `x` after every element that does not rank after it. */
  function Insert(s: seq<NormalizedSlot>, x: NormalizedSlot): seq<NormalizedSlot> {
    if s == [] then [x]
    else if Before(x, s[|s| - 1]) then Insert(s[..|s| - 1], x) + [s[|s| - 1]]
    else s + [x]
  }

  /** Stable insertion sort, taking elements left to right. */
  function StableSort(s: seq<NormalizedSlot>): seq<NormalizedSlot> {
    if s == [] then [] else Insert(StableSort(s[..|s| - 1]), s[|s| - 1])
  }

  /** The elements of `s` with key `k`, in their order in `s`. */
  function WithKey(s: seq<NormalizedSlot>, k: (real, int, int)): seq<NormalizedSlot> {
    if s == [] then [] else (if Key(s[0]) == k then [s[0]] else []) + WithKey(s[1..], k)
  }

  lemma {:induction false} WithKeyAppend(a: seq<NormalizedSlot>, b: seq<NormalizedSlot>, k: (real, int, int))
    ensures WithKey(a + b, k) == WithKey(a, k) + WithKey(b, k)
  {
    if a == [] {
      assert a + b == b;
    } else {
      assert (a + b)[1..] == a[1..] + b;
      WithKeyAppend(a[1..], b, k);
    }
  }

  lemma {:induction false} WithKeyMembers(s: seq<NormalizedSlot>, k: (real, int, int))
    ensures forall x :: x in WithKey(s, k) ==> x in s && Key(x) == k
  {
    if s != [] {
      WithKeyMembers(s[1..], k);
    }
  }

  lemma {:induction false} InsertPermutes(s: seq<NormalizedSlot>, x: NormalizedSlot)
    ensures multiset(Insert(s, x)) == multiset(s) + multiset{x}
  {
    if s != [] && Before(x, s[|s| - 1]) {
      InsertPermutes(s[..|s| - 1], x);
      assert s == s[..|s| - 1] + [s[|s| - 1]];
    }
  }

  lemma {:induction false} InsertSorted(s: seq<NormalizedSlot>, x: NormalizedSlot)
    requires Sorted(s)
    ensures Sorted(Insert(s, x))
  {
    if s != [] {
      var init, last := s[..|s| - 1], s[|s| - 1];
      if Before(x, last) {
        InsertSorted(init, x);
        InsertPermutes(init, x);
        var r := Insert(init, x);
        forall e | e in r ensures !Before(last, e) {
          assert e in multiset(r);
          assert e in init || e == x;
        }
      }
    }
  }

  lemma {:induction false} InsertStable(s: seq<NormalizedSlot>, x: NormalizedSlot, k: (real, int, int))
    ensures WithKey(Insert(s, x), k) == WithKey(s, k) + WithKey([x], k)
  {
    if s == [] {
    } else {
      var init, last := s[..|s| - 1], s[|s| - 1];
      assert s == init + [last];
      WithKeyAppend(init, [last], k);
      if Before(x, last) {
        InsertStable(init, x, k);
        WithKeyAppend(Insert(init, x), [last], k);
      } else {
        WithKeyAppend(s, [x], k);
      }
    }
  }

  /** The sorted list is ordered by (score descending, price ascending, start ascending)
      and is a permutation of its input. */
  lemma {:induction false} StableSortSortsAndPermutes(s: seq<NormalizedSlot>)
    ensures Sorted(StableSort(s))
    ensures multiset(StableSort(s)) == multiset(s)
  {
    if s != [] {
      StableSortSortsAndPermutes(s[..|s| - 1]);
      InsertSorted(StableSort(s[..|s| - 1]), s[|s| - 1]);
      InsertPermutes(StableSort(s[..|s| - 1]), s[|s| - 1]);
      assert s == s[..|s| - 1] + [s[|s| - 1]];
    }
  }

  /** Stability: slots with the same key come out in their input order. */
  lemma {:induction false} StableSortIsStable(s: seq<NormalizedSlot>, k: (real, int, int))
    ensures WithKey(StableSort(s), k) == WithKey(s, k)
  {
    if s != [] {
      StableSortIsStable(s[..|s| - 1], k);
      InsertStable(StableSort(s[..|s| - 1]), s[|s| - 1], k);
      assert s == s[..|s| - 1] + [s[|s| - 1]];
      WithKeyAppend(s[..|s| - 1], [s[|s| - 1]], k);
    }
  }

  lemma NonEmptyHasKey(t: seq<NormalizedSlot>)
    requires t != []
    ensures WithKey(t, Key(t[0])) != []
  {
  }

  /** The first slot of an ordered list ranks no later than any slot in it. */
  lemma FirstRanksFirst(t: seq<NormalizedSlot>, e: NormalizedSlot)
    requires Sorted(t) && e in t
    ensures !Before(e, t[0])
  {
  }

  /** `Before` depends on the key alone, and two slots are tied exactly when their keys agree. */
  lemma KeyDecidesRank(a: NormalizedSlot, b: NormalizedSlot, c: NormalizedSlot)
    ensures Key(a) == Key(b) ==> (Before(a, c) <==> Before(b, c))
    ensures Key(a) == Key(b) <==> !Before(a, b) && !Before(b, a)
  {
  }

  /** Two ordered lists with the same slots of every key start with the same slot,
      and what follows still has the same slots of every key. */
  lemma SameHead(t1: seq<NormalizedSlot>, t2: seq<NormalizedSlot>)
    requires t1 != [] && t2 != [] && Sorted(t1) && Sorted(t2)
    requires forall k :: WithKey(t1, k) == WithKey(t2, k)
    ensures t1[0] == t2[0]
    ensures forall k :: WithKey(t1[1..], k) == WithKey(t2[1..], k)
  {
    var x, y := t1[0], t2[0];
    NonEmptyHasKey(t1);
    NonEmptyHasKey(t2);
    WithKeyMembers(t1, Key(y));
    WithKeyMembers(t2, Key(x));
    var e1 := WithKey(t1, Key(y))[0];
    var e2 := WithKey(t2, Key(x))[0];
    FirstRanksFirst(t1, e1);
    FirstRanksFirst(t2, e2);
    KeyDecidesRank(e1, y, x);
    KeyDecidesRank(e2, x, y);
    KeyDecidesRank(x, y, x);
    assert Key(x) == Key(y);
    assert WithKey(t1, Key(x)) == [x] + WithKey(t1[1..], Key(x));
    assert WithKey(t2, Key(x)) == [y] + WithKey(t2[1..], Key(x));
    forall k ensures WithKey(t1[1..], k) == WithKey(t2[1..], k) {
      var head := if Key(x) == k then [x] else [];
      assert WithKey(t1, k) == head + WithKey(t1[1..], k);
      assert WithKey(t2, k) == head + WithKey(t2[1..], k);
      assert WithKey(t1[1..], k) == WithKey(t1, k)[|head|..];
      assert WithKey(t2[1..], k) == WithKey(t2, k)[|head|..];
    }
  }

  /** Two ordered lists that hold the same slots of every key in the same order are
      equal: a stable sort has exactly one possible outcome. */
  lemma {:induction false} StableOrderIsUnique(t1: seq<NormalizedSlot>, t2: seq<NormalizedSlot>)
    requires Sorted(t1) && Sorted(t2)
    requires forall k :: WithKey(t1, k) == WithKey(t2, k)
    ensures t1 == t2
    decreases |t1|
  {
    if t1 == [] && t2 != [] {
      NonEmptyHasKey(t2);
      assert false;
    } else if t1 != [] && t2 == [] {
      NonEmptyHasKey(t1);
      assert false;
    } else if t1 != [] {
      SameHead(t1, t2);
      StableOrderIsUnique(t1[1..], t2[1..]);
      assert t1 == [t1[0]] + t1[1..];
      assert t2 == [t2[0]] + t2[1..];
    }
  }

  /** Any ordered, stable rearrangement of `s` is `StableSort(s)`. */
  lemma CharacterizesStableSort(s: seq<NormalizedSlot>, t: seq<NormalizedSlot>)
    requires Sorted(t) && forall k :: WithKey(t, k) == WithKey(s, k)
    ensures t == StableSort(s)
  {
    StableSortSortsAndPermutes(s);
    forall k ensures WithKey(t, k) == WithKey(StableSort(s), k) {
      StableSortIsStable(s, k);
    }
    StableOrderIsUnique(t, StableSort(s));
  }

  /** `Insert` places `x` right after the longest prefix whose last element does not
      rank after it: before the run of elements that all rank after `x`. */
  lemma {:induction false} InsertAt(done: seq<NormalizedSlot>, x: NormalizedSlot, j: nat)
    requires j <= |done| && (j == 0 || !Before(x, done[j - 1]))
    requires forall k :: j <= k < |done| ==> Before(x, done[k])
    ensures Insert(done, x) == done[..j] + [x] + done[j..]
    decreases |done|
  {
    if j < |done| {
      var init := done[..|done| - 1];
      assert init[..j] == done[..j];
      InsertAt(init, x, j);
      assert done[j..] == init[j..] + [done[|done| - 1]];
    } else {
      assert done[..j] == done;
    }
  }

  /** A sequence that agrees with `done` around a gap at `j` holding `x`. */
  lemma Placed(b: seq<NormalizedSlot>, done: seq<NormalizedSlot>, x: NormalizedSlot, j: nat)
    requires j <= |done| && |b| == |done| + 1
    requires forall k :: 0 <= k < j ==> b[k] == done[k]
    requires b[j] == x
    requires forall k :: j < k < |b| ==> b[k] == done[k - 1]
    ensures b == done[..j] + [x] + done[j..]
  {
  }

  /** Moves `a[i]` left past every element of the ordered prefix `a[..i]` that ranks
      after it: one insertion step of the sort. */
  method InsertStep(a: array<NormalizedSlot>, i: nat)
    requires i < a.Length
    modifies a
    ensures a[..i + 1] == Insert(old(a[..i]), old(a[i]))
    ensures a[i + 1..] == old(a[i + 1..])
  {
    ghost var done := a[..i];
    var x := a[i];
    var j := i;
    while j > 0 && Before(x, a[j - 1])
      invariant 0 <= j <= i
      invariant forall k :: 0 <= k < j ==> a[k] == done[k]
      invariant forall k :: j < k <= i ==> a[k] == done[k - 1]
      invariant forall k :: i < k < a.Length ==> a[k] == old(a[k])
      invariant forall k :: j <= k < i ==> Before(x, done[k])
    {
      a[j] := a[j - 1];
      j := j - 1;
    }
    InsertAt(done, x, j);
    a[j] := x;
    Placed(a[..i + 1], done, x, j);
  }

  /** `list.sort` with the ranking key, in place on `a`. */
  method SortSlots(a: array<NormalizedSlot>)
    modifies a
    ensures a[..] == StableSort(old(a[..]))
  {
    ghost var input := a[..];
    for i := 0 to a.Length
      invariant a[..i] == StableSort(input[..i])
      invariant a[i..] == input[i..]
    {
      assert input[..i + 1][..i] == input[..i];
      InsertStep(a, i);
    }
    assert input[..a.Length] == input;
  }
}

=== FILE: scoring.dfy ===
/**
  The one condition of `compute_score` the model keeps: whether the requested
  stylist matches a slot's stylist. The score itself is a `ScoreFunction`
  parameter of the pipeline.
 */
module Scoring {

  import opened Wrappers
  import opened Text

  /** `search.stylist and slot.stylist_name and search.stylist.lower() in slot.stylist_name.lower()`:
      both names present and non-empty, the requested one a case-insensitive substring. */
  function StylistMatches(requested: Option<string>, stylist: Option<string>): (b: bool)
    ensures requested.None? || stylist.None? ==> !b
    ensures b ==> && requested.Some? && stylist.Some?
                  && 0 < |requested.value| <= |stylist.value|
                  && Contains(Lower(stylist.value), Lower(requested.value))
  {
    && requested.Some? && requested.value != []
    && stylist.Some? && stylist.value != []
    && Contains(Lower(stylist.value), Lower(requested.value))
  }

  /** A non-empty name always matches itself, whatever its case. */
  lemma StylistMatchesOwnName(name: string, requestedAs: string)
    requires name != [] && Lower(requestedAs) == Lower(name)
    ensures StylistMatches(Some(requestedAs), Some(name))
  {
    assert OccursAt(Lower(name), Lower(requestedAs), 0);
  }

  /** Case does not matter on either side, and a match never names more letters than the stylist has. */
  lemma StylistMatchIgnoresCase(requested: string, stylist: string)
    ensures StylistMatches(Some(requested), Some(stylist))
            <==> StylistMatches(Some(Lower(requested)), Some(stylist))
    ensures StylistMatches(Some(requested), Some(stylist))
            <==> StylistMatches(Some(requested), Some(Lower(stylist)))
    ensures StylistMatches(Some(requested), Some(stylist))
            <==> StylistMatches(Some(Lower(requested)), Some(Lower(stylist)))
    ensures StylistMatches(Some(requested), Some(stylist)) ==> |requested| <= |stylist|
  {
    LowerIdempotent(requested);
    LowerIdempotent(stylist);
  }

  /** A request matches exactly when it is a non-empty piece of the stylist's name,
      spelled in any case. */
  lemma StylistMatchesPieceOfName(requested: string, name: string)
    ensures StylistMatches(Some(requested), Some(name)) <==>
              requested != [] && exists piece :: Contains(name, piece) && Lower(piece) == Lower(requested)
  {
    if StylistMatches(Some(requested), Some(name)) {
      var a: nat :| a <= |Lower(name)| && OccursAt(Lower(name), Lower(requested), a);
      var piece := name[a..a + |requested|];
      assert OccursAt(name, piece, a);
      assert Lower(piece) == Lower(name)[a..a + |requested|];
    }
    if requested != [] && exists piece :: Contains(name, piece) && Lower(piece) == Lower(requested) {
      var piece :| Contains(name, piece) && Lower(piece) == Lower(requested);
      var a: nat :| a <= |name| && OccursAt(name, piece, a);
      assert |piece| == |requested|;
      assert Lower(name)[a..a + |piece|] == Lower(piece);
      assert OccursAt(Lower(name), Lower(requested), a);
    }
  }

  /** Any non-empty piece of a name, in any case, matches it: "al" and "LEX" both match "Alex". */
  lemma StylistExamplePieces()
    ensures StylistMatches(Some("al"), Some("Alex"))
    ensures StylistMatches(Some("LEX"), Some("Alex"))
  {
    StylistMatchesPieceOfName("al", "Alex");
    assert OccursAt("Alex", "Al", 0) && Lower("Al") == Lower("al");
    StylistMatchesPieceOfName("LEX", "Alex");
    assert OccursAt("Alex", "lex", 1) && Lower("lex") == Lower("LEX");
  }

  /** "alex" (as the interpreter extracts it) matches the stylist "Alex". */
  lemma StylistExampleAlex()
    ensures StylistMatches(Some("alex"), Some("Alex"))
  {
    StylistMatchesOwnName("Alex", "alex");
  }
}

=== FILE: slots.dfy ===
/**
  The domain records of the search core (`AppointmentSlot`, `SearchRequest`,
  `NormalizedSlot`) and `normalize_slots`, which turns raw provider slots into
  the provider-agnostic shape the search returns.
 */
module Slots {

  import opened Wrappers
  import opened Text

  const MicrosPerHour := 3_600_000_000
  const MicrosPerDay := 24 * MicrosPerHour
  /** Days from 0001-01-01 (datetime.min) up to and excluding 10000-01-01. */
  const DaysInCalendar := 3_652_059
  const TimeLimit := DaysInCalendar * MicrosPerDay

  /** A naive `datetime`, as microseconds since 0001-01-01T00:00:00. */
  type Instant = t: int | 0 <= t < TimeLimit

  /** One bookable appointment as a connector returns it. Coordinates, prices in
      dollars and scores are Python floats; they are exact reals here. */
  datatype AppointmentSlot = AppointmentSlot(
    provider: string,
    providerLocationId: string,
    providerLocationName: string,
    stylistName: Option<string>,
    serviceName: string,
    startTime: Instant,
    durationMinutes: int,
    priceCents: int,
    currency: string,
    latitude: Option<real>,
    longitude: Option<real>,
    providerUrl: Option<string>,
    providerInternalId: Option<string>,
    score: Option<real>)

  const DefaultLimit := 25

  /** The structured search; `budgetMax` is in dollars. */
  datatype SearchRequest = SearchRequest(
    query: Option<string>,
    when: Option<string>,
    budgetMax: Option<real>,
    distanceMilesMax: Option<real>,
    service: Option<string>,
    stylist: Option<string>,
    lat: Option<real>,
    lng: Option<real>,
    limit: int)

  /** `SearchRequest()` with every field at its default. */
  const DefaultRequest := SearchRequest(None, None, None, None, None, None, None, None, DefaultLimit)

  /** The canonical slot the search returns. */
  datatype NormalizedSlot = NormalizedSlot(
    id: string,
    provider: string,
    locationName: string,
    serviceName: string,
    stylistName: Option<string>,
    startTime: Instant,
    durationMinutes: int,
    priceCents: int,
    currency: string,
    latitude: Option<real>,
    longitude: Option<real>,
    bookUrl: Option<string>,
    score: real)

  /** A scoring function: the numeric content of `compute_score` is not modelled. */
  type ScoreFunction = (AppointmentSlot, SearchRequest) -> real

  /** How an f-string renders an optional internal id (`None` prints as "None"). */
  function InternalIdText(internalId: Option<string>): string {
    match internalId
    case Some(v) => v
    case None => "None"
  }

  /** The composite id `f"{provider}:{provider_internal_id}"`. */
  function ComposeId(provider: string, internalId: Option<string>): string {
    provider + ":" + InternalIdText(internalId)
  }

  /** Splits an id at its first colon into provider and internal-id text. */
  function SplitId(id: string): (string, string) {
    match FindFirst(id, ":")
    case Some(i) => (id[..i], id[i + 1..])
    case None => (id, "")
  }

  /** The composite id can be taken apart again whenever the provider name has no colon. */
  lemma SplitComposedId(provider: string, internalId: Option<string>)
    requires ':' !in provider
    ensures SplitId(ComposeId(provider, internalId)) == (provider, InternalIdText(internalId))
  {
    var id := ComposeId(provider, internalId);
    var n := |provider|;
    assert OccursAt(id, ":", n);
    forall j: nat | j < n ensures !OccursAt(id, ":", j) {
      assert id[j] == provider[j];
    }
    assert FindFirst(id, ":") == Some(n);
    assert id[..n] == provider;
    assert id[n + 1..] == InternalIdText(internalId);
  }

  /** Two slots get the same id only if they agree on provider and rendered
      internal id (for colon-free provider names). */
  lemma ComposedIdInjective(p1: string, i1: Option<string>, p2: string, i2: Option<string>)
    requires ':' !in p1 && ':' !in p2
    requires ComposeId(p1, i1) == ComposeId(p2, i2)
    ensures p1 == p2 && InternalIdText(i1) == InternalIdText(i2)
  {
    SplitComposedId(p1, i1);
    SplitComposedId(p2, i2);
  }

  /** The slot after `s.score = compute_score(s, search)`. */
  function Scored(s: AppointmentSlot, search: SearchRequest, scoreOf: ScoreFunction): AppointmentSlot {
    s.(score := Some(scoreOf(s, search)))
  }

  /** The `NormalizedSlot(...)` built from one slot; `score or 0.0` gives 0.0 for a missing score. */
  function Normalize(s: AppointmentSlot): NormalizedSlot {
    NormalizedSlot(
      ComposeId(s.provider, s.providerInternalId),
      s.provider,
      s.providerLocationName,
      s.serviceName,
      s.stylistName,
      s.startTime,
      s.durationMinutes,
      s.priceCents,
      s.currency,
      s.latitude,
      s.longitude,
      s.providerUrl,
      match s.score case Some(v) => v case None => 0.0)
  }

  /** The list `normalize_slots` returns, one entry per input slot, in order. */
  function NormalizeAll(slots: seq<AppointmentSlot>, search: SearchRequest, scoreOf: ScoreFunction): seq<NormalizedSlot> {
    seq(|slots|, i requires 0 <= i < |slots| => Normalize(Scored(slots[i], search, scoreOf)))
  }

  /** `normalize_slots`: scores every slot in place (returned here as `scored`) and
      appends its normalized form. */
  method NormalizeSlots(slots: seq<AppointmentSlot>, search: SearchRequest, scoreOf: ScoreFunction)
    returns (normalized: seq<NormalizedSlot>, scored: seq<AppointmentSlot>)
    ensures |normalized| == |slots| && |scored| == |slots|
    ensures forall i :: 0 <= i < |slots| ==>
              && scored[i] == slots[i].(score := Some(scoreOf(slots[i], search)))
              && normalized[i].id == ComposeId(slots[i].provider, slots[i].providerInternalId)
              && normalized[i].score == scoreOf(slots[i], search)
    ensures normalized == NormalizeAll(slots, search, scoreOf)
  {
    normalized, scored := [], [];
    for k := 0 to |slots|
      invariant |normalized| == k && |scored| == k
      invariant forall i :: 0 <= i < k ==> scored[i] == Scored(slots[i], search, scoreOf)
      invariant forall i :: 0 <= i < k ==> normalized[i] == Normalize(scored[i])
    {
      var s := slots[k].(score := Some(scoreOf(slots[k], search)));
      scored := scored + [s];
      normalized := normalized + [Normalize(s)];
    }
  }

  /** Normalization copies every field it renames and keeps the score it was given. */
  lemma NormalizeCopiesFields(s: AppointmentSlot, search: SearchRequest, scoreOf: ScoreFunction)
    ensures var n := Normalize(Scored(s, search, scoreOf));
            && n.provider == s.provider && n.locationName == s.providerLocationName
            && n.serviceName == s.serviceName && n.stylistName == s.stylistName
            && n.startTime == s.startTime && n.durationMinutes == s.durationMinutes
            && n.priceCents == s.priceCents && n.currency == s.currency
            && n.latitude == s.latitude && n.longitude == s.longitude
            && n.bookUrl == s.providerUrl && n.score == scoreOf(s, search)
  {
  }

  /** Within one response ids are unique when connectors use colon-free provider
      names and distinct (provider, internal id) pairs. */
  lemma NormalizedIdsDistinct(slots: seq<AppointmentSlot>, search: SearchRequest, scoreOf: ScoreFunction)
    requires forall i :: 0 <= i < |slots| ==> ':' !in slots[i].provider
    requires forall i, j :: 0 <= i < j < |slots| ==>
               (slots[i].provider, InternalIdText(slots[i].providerInternalId))
               != (slots[j].provider, InternalIdText(slots[j].providerInternalId))
    ensures var n := NormalizeAll(slots, search, scoreOf);
            forall i, j :: 0 <= i < j < |n| ==> n[i].id != n[j].id
  {
    var n := NormalizeAll(slots, search, scoreOf);
    forall i, j | 0 <= i < j < |n| ensures n[i].id != n[j].id {
      if n[i].id == n[j].id {
        ComposedIdInjective(slots[i].provider, slots[i].providerInternalId,
                            slots[j].provider, slots[j].providerInternalId);
      }
    }
  }
}

=== FILE: text.dfy ===
/**
  The few pieces of Python's `str` that the search core relies on, restricted to
  ASCII text: `lower`, `split()` and `strip()`, `replace(c, "")`, `isdigit`,
  `int`, the `in` substring test and `split(sep, 1)`.
 */
module Text {

  import opened Wrappers

  /** The ASCII characters for which Python's `str.isspace()` holds; `split()` and
      `strip()` without arguments separate and trim on exactly these. */
  const Whitespace: set<char> :=
    {' ', '\t', '\n', '\r', '\U{B}', '\U{C}', '\U{1C}', '\U{1D}', '\U{1E}', '\U{1F}'}

  function LowerChar(c: char): char {
    if 'A' <= c <= 'Z' then (c as int - 'A' as int + 'a' as int) as char else c
  }

  /** `str.lower()` on ASCII letters; every other character is kept. */
  function Lower(s: string): string {
    seq(|s|, i requires 0 <= i < |s| => LowerChar(s[i]))
  }

  lemma LowerIdempotent(s: string)
    ensures Lower(Lower(s)) == Lower(s)
  {
  }

  /** `p` occurs in `s` starting at index `i`. */
  predicate OccursAt(s: string, p: string, i: nat) {
    i + |p| <= |s| && s[i..i + |p|] == p
  }

  /** Python's `p in s` for strings. */
  predicate Contains(s: string, p: string) {
    exists i: nat | i <= |s| :: OccursAt(s, p, i)
  }

  /** The first index at or after `from` where `p` occurs in `s`. */
  function FindFrom(s: string, p: string, from: nat): (r: Option<nat>)
    ensures r.Some? ==> from <= r.value && OccursAt(s, p, r.value)
    ensures forall j: nat :: from <= j && (r.None? || j < r.value) ==> !OccursAt(s, p, j)
    decreases |s| - from
  {
    if from + |p| > |s| then None
    else if OccursAt(s, p, from) then Some(from)
    else FindFrom(s, p, from + 1)
  }

  /** `s.find(p)`, as an optional index: the first occurrence of `p` in `s`. */
  function FindFirst(s: string, p: string): (r: Option<nat>)
    ensures r.Some? <==> Contains(s, p)
    ensures r.Some? ==> OccursAt(s, p, r.value) && forall j: nat :: j < r.value ==> !OccursAt(s, p, j)
  {
    FindFrom(s, p, 0)
  }

  /** An occurrence inside a suffix is an occurrence in the whole string. */
  lemma OccursInSuffix(s: string, k: nat, p: string, j: nat)
    requires k <= |s| && OccursAt(s[k..], p, j)
    ensures OccursAt(s, p, k + j)
  {
    assert s[k..][j..j + |p|] == s[k + j..k + j + |p|];
  }

  /** An occurrence inside an occurrence is an occurrence. */
  lemma OccursWithin(s: string, w: string, b: nat, p: string, a: nat)
    requires OccursAt(s, w, b) && OccursAt(w, p, a)
    ensures OccursAt(s, p, b + a)
  {
    forall k | 0 <= k < |p| ensures s[b + a + k] == p[k] {
      assert p[k] == w[a + k];
      assert w[a + k] == s[b + a + k];
    }
    assert s[b + a..b + a + |p|] == p;
  }

  /** `s` with every character of `cs` deleted, as repeated `s.replace(c, "")`. */
  function RemoveChars(s: string, cs: set<char>): (r: string)
    ensures |r| <= |s|
  {
    if s == [] then []
    else (if s[0] in cs then [] else [s[0]]) + RemoveChars(s[1..], cs)
  }

  lemma {:induction false} RemoveCharsAppend(a: string, b: string, cs: set<char>)
    ensures RemoveChars(a + b, cs) == RemoveChars(a, cs) + RemoveChars(b, cs)
  {
    if a == [] {
      assert a + b == b;
    } else {
      assert (a + b)[1..] == a[1..] + b;
      RemoveCharsAppend(a[1..], b, cs);
    }
  }

  lemma {:induction false} RemoveCharsNone(s: string, cs: set<char>)
    requires forall i :: 0 <= i < |s| ==> s[i] !in cs
    ensures RemoveChars(s, cs) == s
  {
    if s != [] {
      RemoveCharsNone(s[1..], cs);
    }
  }

  /** Length of the run of non-whitespace characters that starts `s`. */
  function WordLength(s: string): (n: nat)
    ensures n <= |s|
    ensures forall i :: 0 <= i < n ==> s[i] !in Whitespace
    ensures n < |s| ==> s[n] in Whitespace
  {
    if s == [] || s[0] in Whitespace then 0 else 1 + WordLength(s[1..])
  }

  /** `str.split()` without arguments: the maximal runs of non-whitespace characters, left to right. */
  function Split(s: string): seq<string>
    decreases |s|
  {
    if s == [] then []
    else if s[0] in Whitespace then Split(s[1..])
    else
      var n := WordLength(s);
      [s[..n]] + Split(s[n..])
  }

  /** `split()` yields non-empty words free of whitespace. */
  lemma {:induction false} SplitWordsAreWords(s: string)
    ensures forall w :: w in Split(s) ==> w != [] && forall i :: 0 <= i < |w| ==> w[i] !in Whitespace
    decreases |s|
  {
    if s == [] {
    } else if s[0] in Whitespace {
      SplitWordsAreWords(s[1..]);
    } else {
      var n := WordLength(s);
      SplitWordsAreWords(s[n..]);
      assert Split(s) == [s[..n]] + Split(s[n..]);
    }
  }

  /** The first word of `split()` is the first maximal run of non-whitespace
      characters: it starts right after the leading whitespace and runs up to the
      next whitespace character or the end of `s`. */
  lemma {:induction false} SplitHeadIsFirstRun(s: string)
    requires Split(s) != []
    ensures var n := LeadingRun(s, Whitespace);
            && n < |s|
            && Split(s)[0] == s[n..n + WordLength(s[n..])]
    decreases |s|
  {
    if s[0] in Whitespace {
      SplitHeadIsFirstRun(s[1..]);
      assert s[1..][LeadingRun(s[1..], Whitespace)..] == s[LeadingRun(s, Whitespace)..];
    }
  }

  /** The whitespace that follows position `start`: it ends at `n`, the first
      non-whitespace position at or after `start`, or at the end of `s`. */
  lemma SpaceFrom(s: string, start: nat) returns (n: nat)
    requires start <= |s|
    ensures n == start + LeadingRun(s[start..], Whitespace)
    ensures start <= n <= |s|
    ensures forall k :: start <= k < n ==> s[k] in Whitespace
    ensures n < |s| ==> s[n] !in Whitespace
  {
    var rest := s[start..];
    n := start + LeadingRun(rest, Whitespace);
    forall k | start <= k < n ensures s[k] in Whitespace {
      assert s[k] == rest[k - start];
    }
    if n < |s| {
      assert s[n] == rest[n - start];
    }
  }

  /** The word that starts at a non-whitespace position `n`: it ends at `m`, the next
      whitespace position or the end of `s`. */
  lemma WordFrom(s: string, n: nat) returns (m: nat)
    requires n < |s| && s[n] !in Whitespace
    ensures m == n + WordLength(s[n..])
    ensures n < m <= |s|
    ensures forall k :: n <= k < m ==> s[k] !in Whitespace
    ensures m == |s| || s[m] in Whitespace
  {
    var tail := s[n..];
    var w := WordLength(tail);
    assert tail[0] == s[n];
    m := n + w;
    forall k | n <= k < m ensures s[k] !in Whitespace {
      assert s[k] == tail[k - n];
    }
    if m < |s| {
      assert s[m] == tail[w];
    }
  }

  /** The first word of `split()` applied to the text from `start` on: it starts after
      the whitespace that follows `start` and runs as far as `WordLength` says. */
  lemma FirstWordFrom(s: string, start: nat)
    requires start <= |s| && Split(s[start..]) != []
    ensures var n := start + LeadingRun(s[start..], Whitespace);
            && n < |s|
            && Split(s[start..])[0] == s[n..n + WordLength(s[n..])]
  {
    var rest := s[start..];
    SplitHeadIsFirstRun(rest);
    var lead := LeadingRun(rest, Whitespace);
    assert rest[lead..] == s[start + lead..];
  }

  /** The first word of `split()` applied to the text from `start` on, located in the
      whole text: whitespace from `start` to `n`, then the word from `n` to `m`, which
      ends at whitespace or at the end of `s`. */
  lemma FirstWordBounds(s: string, start: nat) returns (n: nat, m: nat)
    requires start <= |s| && Split(s[start..]) != []
    ensures start <= n < m <= |s|
    ensures forall k :: start <= k < n ==> s[k] in Whitespace
    ensures forall k :: n <= k < m ==> s[k] !in Whitespace
    ensures m == |s| || s[m] in Whitespace
    ensures Split(s[start..])[0] == s[n..m]
  {
    FirstWordFrom(s, start);
    n := SpaceFrom(s, start);
    m := WordFrom(s, n);
  }

  /** `split()` yields no word exactly when `s` is all whitespace. */
  lemma {:induction false} SplitEmpty(s: string)
    ensures Split(s) == [] <==> forall i :: 0 <= i < |s| ==> s[i] in Whitespace
    decreases |s|
  {
    if s != [] && s[0] in Whitespace {
      SplitEmpty(s[1..]);
      assert forall i :: 1 <= i < |s| ==> s[i] == s[1..][i - 1];
    }
  }

  /** Every word of `split()` is a substring of the text it came from. */
  lemma {:induction false} SplitWordsOccur(s: string)
    ensures forall k :: 0 <= k < |Split(s)| ==> Contains(s, Split(s)[k])
    decreases |s|
  {
    if s == [] {
    } else if s[0] in Whitespace {
      SplitWordsOccur(s[1..]);
      forall k | 0 <= k < |Split(s)| ensures Contains(s, Split(s)[k]) {
        var j: nat :| j <= |s[1..]| && OccursAt(s[1..], Split(s[1..])[k], j);
        OccursInSuffix(s, 1, Split(s)[k], j);
      }
    } else {
      var n := WordLength(s);
      SplitWordsOccur(s[n..]);
      forall k | 0 <= k < |Split(s)| ensures Contains(s, Split(s)[k]) {
        if k == 0 {
          assert OccursAt(s, s[..n], 0);
        } else {
          var w := Split(s[n..])[k - 1];
          var j: nat :| j <= |s[n..]| && OccursAt(s[n..], w, j);
          OccursInSuffix(s, n, w, j);
        }
      }
    }
  }

  /** `split()` of a text that starts with a word of length `n` followed by whitespace. */
  lemma SplitFirstWord(s: string, n: nat)
    requires 0 < n < |s| && s[n] in Whitespace && forall i :: 0 <= i < n ==> s[i] !in Whitespace
    ensures Split(s) == [s[..n]] + Split(s[n + 1..])
  {
    assert WordLength(s) == n;
    assert s[n..][1..] == s[n + 1..];
  }

  /** `split()` of a single word. */
  lemma SplitOneWord(s: string)
    requires s != [] && forall i :: 0 <= i < |s| ==> s[i] !in Whitespace
    ensures Split(s) == [s]
  {
    assert s[0] !in Whitespace;
    var n := WordLength(s);
    assert n == |s|;
    assert s[..n] == s;
    assert Split(s[n..]) == [];
  }

  /** `split()` of a word, one space, and more text. */
  lemma SplitWordSpace(a: string, b: string)
    requires a != [] && forall i :: 0 <= i < |a| ==> a[i] !in Whitespace
    ensures Split(a + " " + b) == [a] + Split(b)
  {
    var s := a + " " + b;
    SplitFirstWord(s, |a|);
    assert s[..|a|] == a;
    assert s[|a| + 1..] == b;
  }

  /** `" ".join(words)`. */
  function JoinWords(words: seq<string>): string {
    if words == [] then []
    else if |words| == 1 then words[0]
    else words[0] + " " + JoinWords(words[1..])
  }

  /** `split()` undoes `" ".join` for non-empty words without whitespace. */
  lemma {:induction false} SplitJoinWords(words: seq<string>)
    requires forall k :: 0 <= k < |words| ==>
               words[k] != [] && forall i :: 0 <= i < |words[k]| ==> words[k][i] !in Whitespace
    ensures Split(JoinWords(words)) == words
  {
    if |words| == 1 {
      SplitOneWord(words[0]);
    } else if |words| > 1 {
      SplitJoinWords(words[1..]);
      SplitWordSpace(words[0], JoinWords(words[1..]));
    }
  }

  /** A pattern whose first character never occurs in `s` does not occur in `s`. */
  lemma AbsentInitial(s: string, p: string)
    requires p != [] && forall i :: 0 <= i < |s| ==> s[i] != p[0]
    ensures !Contains(s, p)
  {
    forall i: nat | i <= |s| ensures !OccursAt(s, p, i) {
      if i + |p| <= |s| {
        assert s[i..i + |p|][0] == s[i];
      }
    }
  }

  /** Number of leading characters of `s` that belong to `cs`. */
  function LeadingRun(s: string, cs: set<char>): (n: nat)
    ensures n <= |s|
    ensures forall j :: 0 <= j < n ==> s[j] in cs
    ensures n < |s| ==> s[n] !in cs
  {
    if s != [] && s[0] in cs then 1 + LeadingRun(s[1..], cs) else 0
  }

  /** Number of trailing characters of `s` that belong to `cs`. */
  function TrailingRun(s: string, cs: set<char>): (n: nat)
    ensures n <= |s|
    ensures forall j :: |s| - n <= j < |s| ==> s[j] in cs
    ensures n < |s| ==> s[|s| - 1 - n] !in cs
  {
    if s != [] && s[|s| - 1] in cs then 1 + TrailingRun(s[..|s| - 1], cs) else 0
  }

  /** `s.strip(chars)`: drop leading, then trailing, characters that belong to `cs`. */
  function Strip(s: string, cs: set<char>): string {
    var t := s[LeadingRun(s, cs)..];
    t[..|t| - TrailingRun(t, cs)]
  }

  /** `strip` removes exactly a run of `cs` characters from each end, and nothing it
      leaves starts or ends with one of them. */
  lemma StripTrimsBothEnds(s: string, cs: set<char>)
    ensures var r := Strip(s, cs);
            && (r == [] || (r[0] !in cs && r[|r| - 1] !in cs))
            && exists i: nat | i <= |s| ::
                 && OccursAt(s, r, i)
                 && (forall j :: 0 <= j < i ==> s[j] in cs)
                 && (forall j :: i + |r| <= j < |s| ==> s[j] in cs)
  {
    var i := LeadingRun(s, cs);
    var t := s[i..];
    var n := TrailingRun(t, cs);
    var r := Strip(s, cs);
    assert r == s[i..i + |r|];
    assert OccursAt(s, r, i);
    forall j | i + |r| <= j < |s| ensures s[j] in cs {
      assert s[j] == t[j - i];
    }
  }

  /** `strip` leaves a text alone when neither end is a character to strip. */
  lemma StripKeeps(s: string, cs: set<char>)
    requires s != [] && s[0] !in cs && s[|s| - 1] !in cs
    ensures Strip(s, cs) == s
  {
    assert LeadingRun(s, cs) == 0;
    assert s[0..] == s;
    assert TrailingRun(s, cs) == 0;
  }

  predicate IsDigit(c: char) {
    '0' <= c <= '9'
  }

  /** `str.isdigit()` on ASCII text: non-empty and decimal digits only. */
  predicate IsDigits(s: string) {
    s != [] && forall i :: 0 <= i < |s| ==> IsDigit(s[i])
  }

  /** `int(s)` for a string of decimal digits (leading zeros allowed). */
  function DecimalValue(s: string): (v: nat)
    requires forall i :: 0 <= i < |s| ==> IsDigit(s[i])
  {
    if s == [] then 0
    else
      assert IsDigit(s[|s| - 1]);
      10 * DecimalValue(s[..|s| - 1]) + (s[|s| - 1] as int - '0' as int)
  }
}

=== FILE: when_parser.dfy ===
/**
  `parse_when_text`: a loose time phrase to an optional lower bound on slot start
  times. The clock and the fuzzy date parser are parameters.
 */
module WhenParser {

  import opened Wrappers
  import opened Text
  import opened Slots

  /** The fuzzy `dateutil` parse of the original text with `now` as default; `None`
      stands for any exception it raises. */
  type Fallback = (string, Instant) -> Option<Instant>

  const NowWords: set<string> := {"now", "asap", "today"}

  /** `now.replace(hour=9, minute=0, second=0, microsecond=0) + timedelta(days=1)`;
      `None` when that passes the last representable day (OverflowError). */
  function NextDayAtNine(now: Instant): (r: Option<Instant>)
    ensures r.Some? <==> now / MicrosPerDay + 1 < DaysInCalendar
    ensures r.Some? ==> && now < r.value <= now + MicrosPerDay + 9 * MicrosPerHour
                        && r.value / MicrosPerDay == now / MicrosPerDay + 1
                        && r.value % MicrosPerDay == 9 * MicrosPerHour
  {
    var day := now / MicrosPerDay;
    var t := (day + 1) * MicrosPerDay + 9 * MicrosPerHour;
    if t < TimeLimit then Some(t) else None
  }

  /** `parse_when_text(when_text)` evaluated at instant `now`. */
  function ParseWhenText(whenText: Option<string>, now: Instant, fallback: Fallback): (r: Option<Instant>)
    ensures whenText.None? || whenText.value == [] ==> r.None?
    ensures whenText.Some? && Strip(Lower(whenText.value), Whitespace) in NowWords ==> r == Some(now)
    ensures whenText.Some? && Strip(Lower(whenText.value), Whitespace) == "tomorrow" ==>
              r == NextDayAtNine(now)
    ensures whenText.Some? && whenText.value != []
            && Strip(Lower(whenText.value), Whitespace) !in NowWords
            && Strip(Lower(whenText.value), Whitespace) != "tomorrow" ==>
              r == fallback(whenText.value, now)
    ensures whenText.Some? && whenText.value != [] && r.Some? && r.value < now ==>
              r == fallback(whenText.value, now)
  {
    if whenText.None? || whenText.value == [] then None
    else
      var text := Strip(Lower(whenText.value), Whitespace);
      if text in NowWords then Some(now)
      else if text == "tomorrow" then NextDayAtNine(now)
      else fallback(whenText.value, now)
  }

  /** A word of lower-case letters is its own trimmed, lower-cased form. */
  lemma PlainWordNormalizes(w: string)
    requires w != [] && forall i :: 0 <= i < |w| ==> 'a' <= w[i] <= 'z'
    ensures Strip(Lower(w), Whitespace) == w
  {
    assert Lower(w) == w;
    assert w[0] !in Whitespace && w[|w| - 1] !in Whitespace;
  }

  /** The two phrases the interpreter produces are resolved from the clock alone,
      never by the fuzzy fallback. */
  lemma InterpreterPhrasesUseClock(now: Instant, f1: Fallback, f2: Fallback)
    ensures ParseWhenText(Some("today"), now, f1) == Some(now)
    ensures ParseWhenText(Some("tomorrow"), now, f1) == ParseWhenText(Some("tomorrow"), now, f2)
                                                    == NextDayAtNine(now)
  {
    PlainWordNormalizes("today");
    PlainWordNormalizes("tomorrow");
  }
}

=== FILE: wrappers.dfy ===
/** Optional values and results with an error, standing for Python's None and raised exceptions. */
module Wrappers {

  datatype Option<+T> = None | Some(value: T)

  datatype Result<+T, +E> = Ok(value: T) | Err(error: E)
}
